=== FILE: README.md ===
# TransmissionApi client, modelled in Dafny

This project models the core of the Ruby `TransmissionApi::Client`
(`lib/transmission_api/client.rb`). The client speaks Transmission's JSON-RPC
protocol to a BitTorrent daemon. The model covers:

- how a client is built from its options: the field list, the extended-fields
  union, basic authentication and the initial session token;
- the session-token handshake in `http_post`: a 409 reply carries a new
  token, and the client adopts it and sends the same request again;
- the success-envelope check in `post`: any `result` other than `"success"`
  is an error that carries that result;
- the public operations `all`, `find`, `find_by_hash`, `create`, `start`,
  `stop`, `destroy`, `config_get`, `config_set` and `find_each`. For each,
  the model gives the request it sends and the part of the reply it returns.

The daemon is not modelled as a program. Each operation takes a **script**,
the sequence of replies the daemon would give in order, and returns a `Call`:
- the client afterwards, which only differs in its session token;
- every request actually sent, with its URL, body, token and credentials;
- the outcome, a `Result`;
- the replies the operation did not consume.

HTTP failures and a script that runs out both become a `TransportFailure`.

Modules follow the program's structure:

| file | module | holds |
|---|---|---|
| `wrappers.dfy` | `Wrappers` | `Option` and `Result` |
| `json.dfy` | `JsonValue` | parsed JSON values; object lookup where the last binding of a key wins, as in Ruby's `JSON.parse` |
| `errors.dfy` | `Errors` | the ways a call can fail |
| `fields.dfy` | `Fields` | the two torrent field lists and Ruby's `Array#\|` |
| `requests.dfy` | `Requests` | the request each operation sends, and its JSON body |
| `session.dfy` | `Session` | client construction and the 409 handshake |
| `envelope.dfy` | `Envelope` | `post`: the handshake followed by the envelope check |
| `operations.dfy` | `Operations` | the public operations |

Points where the model follows the code rather than what a reader of the
client might expect, and the one place where the code needs a reading:

- **No retry cap.** `http_post` resends after every 409 reply, with no cap
  (`client.rb:288-292`). The model renegotiates as often as the daemon
  answers 409. Against a daemon that only ever answers 409, the Ruby
  recursion at line 291 ends only when the stack overflows
  (`SystemStackError`). In the model such a daemon uses up the script, and
  the call ends with a `TransportFailure` (`Session.EndlessConflicts`). No
  "renegotiation exhausted" error exists.
- **Joined field name (a modelling choice).** `TORRENT_EXTRA_FIELDS` has no
  comma after `"isFinished"` (`client.rb:37`), and `"isStalled"` starts the
  next line. Ruby joins adjacent string literals only on one logical line,
  so as written the array is a syntax error, as are the `STATUS_*` lines.
  The model reads the two literals as the single entry
  `"isFinishedisStalled"`, so its list has 32 entries. Under that reading an
  extended client asks for neither `isFinished` nor `isStalled`
  (`Fields.DefaultExtendedFields`). The entry is listed under "Left out".
- **`all` needs a reading (a modelling choice).** Line 137 is
  `unless opts[:fields].nil? do`, which hands the `do … end` block to
  `nil?` rather than closing the condition. Read as written, the `unless`
  stays open through line 149, so `all()` without `:fields` sends nothing
  and returns nil, and the class's `end`s no longer balance. The model's reading is
  a hybrid. It treats the `unless` as closed at line 139, and it keeps the
  `do … end` block's scoping, so the assignment at line 138 makes a
  variable local to that block. Line 144's `fields` then names the
  client's `fields` accessor, and `all` always sends the client's own field
  list and answers with `arguments.torrents`. This is not what a plain
  `unless … end` guard would do. A guard is not a block, so its assignment
  would make `fields` a method-local variable from line 138 on, even when
  it never runs. `all(fields: f)` would then send `f`, and `all()` would
  send `"fields": null`. The reading is listed under "Left out".
- **Missing torrents are not errors.** `find` and `find_by_hash` answer
  nothing (`None`, Ruby's nil) for a torrent that does not exist.

## Model

| member | source | states |
|---|---|---|
| Fields.Dedup | lib/transmission_api/client.rb:127 | The duplicate removal inside `Array#\|`: the result has no duplicates and holds exactly the elements of its input. |
| Fields.DedupKeepsFirstOrder | lib/transmission_api/client.rb:127 | Duplicate removal keeps elements in the order of their first occurrence in the input. |
| Fields.UnionSplits | lib/transmission_api/client.rb:127 | The union of `a` and `b` is the de-duplicated `a` followed by the de-duplicated elements of `b` that are not in `a`. |
| Fields.Union | lib/transmission_api/client.rb:127 | `a \| b` has no duplicates, holds exactly the elements in `a` or in `b`, and starts with the de-duplicated `a`. |
| Fields.UnionOfDistinct | lib/transmission_api/client.rb:126-128 | When both lists are duplicate-free, `a \| b` is `a` unchanged, followed by the entries of `b` missing from `a`, in `b`'s order. |
| Fields.DefaultFieldsDistinct | lib/transmission_api/client.rb:19-30 | The 10 default torrent fields are pairwise distinct. |
| Fields.ExtraFieldsDistinct | lib/transmission_api/client.rb:32-66 | The 32 extra torrent fields are pairwise distinct. |
| Fields.JoinedEntry | lib/transmission_api/client.rb:37-38 | In the model's reading of the missing comma, the fifth extra entry is the single string "isFinishedisStalled". |
| Fields.FinishedUnlisted | lib/transmission_api/client.rb:32-66 | "isFinished" is an entry of neither field list. |
| Fields.StalledUnlisted | lib/transmission_api/client.rb:32-66 | "isStalled" is an entry of neither field list. |
| Fields.ExtraOverlap | lib/transmission_api/client.rb:19-66 | The extra list repeats exactly three default fields: "status", "id" and "hashString", at positions 15, 20 and 31. |
| Fields.ExtraBeyondDefault | lib/transmission_api/client.rb:19-66 | The extra fields missing from the defaults are the extra list without those three entries. |
| Fields.DefaultsThenNew | lib/transmission_api/client.rb:125-128 | Both field lists are duplicate-free, so their union is the 10 defaults followed by the extras the defaults lack. |
| Fields.DefaultExtendedOrder | lib/transmission_api/client.rb:125-128 | An extended client with the default fields asks for the 10 defaults in order, then the 29 extras the defaults lack, in order. |
| Fields.DefaultExtendedFields | lib/transmission_api/client.rb:125-128 | That list has 39 entries. It includes "isFinishedisStalled" but neither "isFinished" nor "isStalled". |
| Session.New | lib/transmission_api/client.rb:122-132 | Construction. The field list is the caller's (else the defaults), unchanged unless extended mode is on. With extended mode it is the union with the extras: no duplicates, exactly the elements of either list, starting with the de-duplicated base list. The token is "NOT-INITIALIZED". Credentials are present exactly when a username was given, and then hold that username and password. |
| Session.HttpPost | lib/transmission_api/client.rb:271-295 | The handshake. Every send goes to the client's URL with the request's body and the client's credentials. The first send carries the client's token, and each later send carries the token of the 409 reply before it. Every reply before the last send was a 409. The client keeps the last token sent. The outcome is the first non-409 reply, or a transport failure when the replies run out. |
| Session.HandshakeStep | lib/transmission_api/client.rb:288-292 | One 409 reply followed by a handshake from the adopted token is a handshake from the original client. |
| Session.FirstReplyFinal | lib/transmission_api/client.rb:288-294 | A first reply other than 409 is returned as is, after exactly one send, with the token unchanged. |
| Session.StopsAtFirstNonConflict | lib/transmission_api/client.rb:288-294 | After k replies of 409, reply k (not a 409) is the answer. It takes k+1 sends, and the replies after it are left unconsumed. |
| Session.RenegotiatesOnce | lib/transmission_api/client.rb:288-292 | A 409 followed by another reply leads to two sends. The second carries the token from the 409, the client keeps that token, and the second reply is the answer. |
| Session.EndlessConflicts | lib/transmission_api/client.rb:288-292 | Nothing caps the resends: a run of 409 replies leads to one send per reply plus one more. |
| Session.FreshClientSends | lib/transmission_api/client.rb:272-276 | A new client's first request carries "NOT-INITIALIZED", and every request carries credentials exactly when a username was configured. |
| Requests.Body | lib/transmission_api/client.rb:272-273 | The body is an object. Its keys are "method", then "arguments" when there are arguments. "method" holds the method name and "arguments" holds the arguments. |
| Requests.BodyRoundTrip | lib/transmission_api/client.rb:273 | Reading a request back from its body gives that request. |
| Requests.FromBodyInverse | lib/transmission_api/client.rb:273 | A body that reads back as a request is exactly that request's body. |
| Requests.AllRequest | lib/transmission_api/client.rb:141-146 | `all` sends "torrent-get" whose only argument is "fields", holding the given field list. |
| Requests.IdListRequest | lib/transmission_api/client.rb:152-157 | `find_each` first sends "torrent-get" whose only argument is "fields", holding just "id". |
| Requests.FindRequest | lib/transmission_api/client.rb:167-174 | `find` sends "torrent-get" with arguments "fields" (the client's list) and then "ids" (a one-element list holding the id). |
| Requests.CreateRequest | lib/transmission_api/client.rb:188-194 | `create` sends "torrent-add" whose only argument is "filename", holding the given name. |
| Requests.StartRequest | lib/transmission_api/client.rb:201-207 | `start` sends "torrent-start" whose only argument is "ids", holding the id alone. |
| Requests.StopRequest | lib/transmission_api/client.rb:213-219 | `stop` sends "torrent-stop" whose only argument is "ids", holding the id alone. |
| Requests.DestroyRequest | lib/transmission_api/client.rb:223-233 | `destroy` sends "torrent-remove" with arguments "ids" (the id alone) and "delete-local-data". That flag is true only when the caller passed true; it is false when the argument is omitted. |
| Requests.ConfigGetRequest | lib/transmission_api/client.rb:241-244 | `config_get` sends "session-get", and its body has no "arguments" key. |
| Requests.ConfigSetRequest | lib/transmission_api/client.rb:252-256 | `config_set` sends "session-set", and its body's "arguments" is the caller's value, verbatim. |
| Envelope.Index | lib/transmission_api/client.rb:264 | Ruby's `value[key]` on parsed JSON. On an object it gives the last binding of the key, or nil when the key is missing. On any other value it fails. |
| Envelope.Check | lib/transmission_api/client.rb:262-268 | The envelope check accepts exactly a parsed object whose "result" is "success", and returns it unchanged. A body that did not parse and a body that is not an object fail as such. Any other object fails with its "result" value, or nil when it has none. |
| Envelope.CheckCarriesResult | lib/transmission_api/client.rb:264-265 | A "result" string other than "success" becomes the error, verbatim. |
| Envelope.Post | lib/transmission_api/client.rb:261-269 | `post` has the handshake's sends, client and leftover replies, and passes its failures through. Otherwise its outcome is the envelope check of the final reply's body. A success is that body, whose "result" is "success", and such a body is always a success. A parsed object with any other "result" fails with that value as the error. |
| Operations.Payload | lib/transmission_api/client.rb:148 | `doc["arguments"][key]`. It succeeds exactly when the document and its "arguments" are both objects, and then gives that member (nil when absent). Otherwise it fails with `BadDocument`. |
| Operations.FirstOf | lib/transmission_api/client.rb:176 | Ruby's `first`. On a list: nothing when empty, otherwise the first element. On an object (a Ruby Hash): nothing when empty, otherwise the first key paired with that key's value. It fails on any other value. |
| Operations.Select | lib/transmission_api/client.rb:182 | Every record `select` keeps has the hash and comes from the input, and every input record with the hash is kept. |
| Operations.SelectSingle | lib/transmission_api/client.rb:182 | On one record, `select` keeps it exactly when it has the hash. |
| Operations.SelectAppend | lib/transmission_api/client.rb:182 | `select` keeps order and multiplicity: on `a + b` it is `select` on `a` followed by `select` on `b`. |
| Operations.SelectStartsAtEarliest | lib/transmission_api/client.rb:182 | The first record `select` keeps has no matching record before it in the input. |
| Operations.FirstWithHash | lib/transmission_api/client.rb:182 | The answer is nothing exactly when no record has the hash. Otherwise it is the earliest record with the hash. |
| Operations.All | lib/transmission_api/client.rb:134-149 | `all` has exactly the sends, client and leftover replies of `post` of the request for the client's own fields. It fails as `post` fails. Otherwise it answers with `arguments.torrents`, whatever that holds (nil when absent), and fails where Ruby's indexing raises. |
| Operations.Find | lib/transmission_api/client.rb:164-177 | `find(id)` has exactly the sends, client and leftover replies of `post` of the request for that id with the client's fields. It fails as `post` fails. Otherwise it answers with `first` of `arguments.torrents`: for a list, its first record, or nothing when the list is empty. When the envelope or its "arguments" is not an object, it fails with `BadDocument`. |
| Operations.FindByHash | lib/transmission_api/client.rb:179-183 | `find_by_hash` has exactly the sends, client and leftover replies of the `all` request. Any record it returns has the hash. It fails as `post` fails. For a list of torrents it answers with the earliest record that has the hash, or nothing. For an object it answers nothing when the object is empty or the hash is not the string "hashString". When `arguments.torrents` cannot be read, or is neither a list nor an object, it fails with `BadDocument`. |
| Operations.Create | lib/transmission_api/client.rb:185-196 | `create` has exactly the sends, client and leftover replies of `post` of the "torrent-add" request, and fails as `post` fails. It succeeds exactly when the envelope's "arguments" is an object, and then answers with its "torrent-added" member (nil when absent). |
| Operations.WholeEnvelope | lib/transmission_api/client.rb:261-269 | Exactly `post` of the given request: the handshake's sends, client and leftover replies, its failures passed through, and otherwise the envelope check of the final reply's body. A success is that body unchanged, with "result" equal to "success", and such a body is always a success. |
| Operations.Start | lib/transmission_api/client.rb:198-208 | `start` is exactly `post` of its request. It has the handshake's sends, client and leftover replies, and passes its failures through. Its outcome is the envelope check of the final reply's body, so a success is that whole envelope, and the envelope succeeded. |
| Operations.Stop | lib/transmission_api/client.rb:210-221 | `stop` is exactly `post` of its request. It has the handshake's sends, client and leftover replies, and passes its failures through. Its outcome is the envelope check of the final reply's body, so a success is that whole envelope, and the envelope succeeded. |
| Operations.Destroy | lib/transmission_api/client.rb:223-236 | `destroy` is exactly `post` of its request. It has the handshake's sends, client and leftover replies, and passes its failures through. Its outcome is the envelope check of the final reply's body, so a success is that whole envelope, and the envelope succeeded. |
| Operations.ConfigSet | lib/transmission_api/client.rb:249-259 | `config_set` is exactly `post` of its request. It has the handshake's sends, client and leftover replies, and passes its failures through. Its outcome is the envelope check of the final reply's body, so a success is that whole envelope, and the envelope succeeded. |
| Operations.ConfigGet | lib/transmission_api/client.rb:238-247 | `config_get` has exactly the sends, client and leftover replies of `post` of "session-get". It succeeds exactly when `post` does, and then answers with the envelope's "arguments", or nil when it has none. |
| Operations.FindEachOf | lib/transmission_api/client.rb:158-161 | The walk over the listed torrents yields at most one answer per torrent, and exactly one each when nothing failed. Every request is a "torrent-get" for the client's fields, and only the token changes. Its first step is `find` of the first torrent's id. A first torrent whose `['id']` fails ends the walk before any request. Otherwise that `find`'s requests come first, and its error ends the walk or its answer is the first one yielded. |
| Operations.FindEachOfIsWalk | lib/transmission_api/client.rb:158-161 | The walk of `find_each` is the generic walk over the listed torrents whose block call is `find` of the torrent's `['id']`. |
| Operations.FindEachOfAppend | lib/transmission_api/client.rb:158-161 | The walk over the torrents `a + b`, when the walk over `a` does not fail, is that walk followed by the walk over `b` from the client and replies it left: `a`'s requests then `b`'s, `a`'s answers then `b`'s, and `b`'s failure, client and leftover replies. |
| Operations.FindEachOfAppendFailed | lib/transmission_api/client.rb:158-161 | When the walk over `a` fails, the walk over `a + b` is the same walk: nothing after the failing torrent is requested or yielded. |
| Operations.FindEachOfSingle | lib/transmission_api/client.rb:158-161 | The walk over one torrent is one `find` of its id: the same requests, client and leftover replies, with that answer yielded or that error reported. |
| Operations.Listed | lib/transmission_api/client.rb:158 | The torrents `find_each` walks: `arguments.torrents` when it is a list, and none when it is an empty object. It fails on anything else, and a `post` failure passes through. |
| Operations.FindEach | lib/transmission_api/client.rb:151-162 | `find_each` first sends the id-only listing, and only the token changes. If the listing fails, nothing more is sent or yielded. Otherwise the walk over the listed torrents follows, from the client and replies the listing left, and its requests, answers and failure are `find_each`'s. The walk ends without failure exactly when the listing succeeded and one answer was yielded per listed torrent. |

## Left out

- Transport: the HTTParty transport itself is not modelled (`client.rb:283`). Each call takes the daemon's replies as a script, and running out of replies stands for a transport error.
- JSON text: serialising the body (`to_json`) and parsing replies (`JSON::parse`) are not modelled. Bodies are JSON values, and a reply body that is not JSON is `None` (Unparseable), where Ruby would raise a parser exception.
- JSON numbers with fractions are not modelled; the model's `Json` has only integers. The client never inspects such values.
- Logging (`log`, `log_response`) and the effect of `debug_mode` are not modelled: they only write to standard output. The flag itself is kept on the client.
- The `STATUS_*` lines (`client.rb:10-17`) are not modelled: nothing in the core reads them.
- `SESSION_FIELDS`, `SESSION_EXTRA_FIELDS` and the `session_fields` accessor are not modelled: no operation reads them.
- Operations.All: modelled under a reading of `client.rb:137-139`. As written, `do … end` binds to `nil?`, the `unless` runs to line 149, and `all()` without `:fields` sends nothing and returns nil (and the file's `end`s do not balance). The model instead keeps the block's scoping but closes the `unless` at line 139, so it always sends the client's own fields. The `opts[:fields]` argument is not modelled, because under this reading it never reaches the request. Read as a plain `unless … end` guard, the assignment would make `fields` a method-local variable. `all(fields: f)` would then send `f`, and `all()` would send `"fields": null` rather than the client's list; the model covers neither. `Operations.FindByHash` calls `all()` without arguments (`client.rb:181`), so its contract rests on the same reading. As written it would call `select` on nil, and under a plain guard it would ask for `"fields": null`.
- Fields.JoinedEntry: the source's `TORRENT_EXTRA_FIELDS` (`client.rb:32-66`) does not parse, because of the missing comma at line 37. The model reads lines 37-38 as one joined entry, giving 32 entries, instead of the evidently intended 33. Both are readings of text that does not parse. The joined one is chosen because it changes only the line break between the two literals, where the 33-entry reading adds a comma the file lacks. The same choice fixes the 39 entries of `Fields.DefaultExtendedFields` and the positions in `Fields.ExtraOverlap`.
- Envelope.Index: Ruby's `value[key]` raises on a list, on nil and on a number, and the model's `BadDocument` failure stands for that. On a string, Ruby instead returns the key when the string contains it, and nil otherwise. The model does not model that substring reading; it fails with `BadDocument` there as well. This affects `response["result"]`, `["arguments"]`, and `t['id']` in `find_each`.
- Operations.FindByHash: a listed record that is not an object never matches. Ruby would raise on a list, a number or nil record, and a string record compares its substring reading. When `arguments.torrents` is a non-empty object and the hash sought is the string "hashString", Ruby's `select` passes each key to the block and may keep key/value pairs; the model fails with `BadDocument` there.
- Session.New: `url`, `username` and `password` are modelled as strings only. A nil URL, and any Ruby truthiness for `with_extra` and `debug_mode` other than true and false, are not modelled.
- Operations.FindEachOf: the contract states the first step, `Operations.FindEachOfSingle` states the one-torrent walk, and `Operations.FindEachOfAppend` and `Operations.FindEachOfAppendFailed` state how walks compose. Nothing closed-form says that yield k is the answer to `find` of torrent k taken on its own, because each `find` starts from the client and replies the previous one left. The block's own side effects are not modelled.
- Operations.FindEach: the same limit as FindEachOf for the yielded values. Two more points are not modelled. `find_each` returns the receiver of `each`, the listed `arguments.torrents`, and the model's `Each` result has no place for it. Called without a block, Ruby raises `LocalJumpError` at line 160, after the first `find` has been sent; the model always has a block and walks on.
- Requests.DestroyRequest: `trashdata` is modelled as an optional boolean. Ruby passes any value through, so `destroy(id, nil)` sends `"delete-local-data": null`, and other values are sent as they are; the model does not cover those calls.
- Session.New: a caller's `fields` is modelled as a list of strings. Ruby also accepts symbols, and `[:id] | TORRENT_EXTRA_FIELDS` keeps both `:id` and `"id"`, which `to_json` writes as the same string. The no-duplicates clause of `Session.New` says nothing about such a list.
- Reading settings back after `config_set` needs a daemon that stores them. The daemon is not modelled, so no round trip between `config_set` and `config_get` is stated.
- Concurrency: two threads sharing one client, and so one session token, are not modelled.

=== FILE: envelope.dfy ===
/**
 * `post`: one logical call through the handshake, then the check of the
 * response envelope `{"result": ..., "arguments": ...}`.
 */
module Envelope {
  import opened Wrappers
  import opened JsonValue
  import opened Errors
  import opened Requests
  import opened Session

  /** The `result` value by which the daemon reports success. */
  const SUCCESS: string := "success"

  /** A parsed envelope whose `result` is exactly "success". */
  predicate Succeeded(doc: Json)
  {
    doc.JObject? && Get(doc.members, "result") == Some(JString(SUCCESS))
  }

  /**
   * Ruby's `value[key]` on a parsed value: on an object, the bound value or
   * `JNull` (nil) for a missing key; on anything else Ruby raises.
   */
  function Index(v: Json, key: string): (r: Result<Json, Error>)
    ensures r.Success? <==> v.JObject?
    ensures r.Failure? ==> r.error == BadDocument
    ensures v.JObject? && Get(v.members, key).Some? ==> r.value == Get(v.members, key).value
    ensures v.JObject? && Get(v.members, key).None? ==> r.value == JNull
  {
    match v
    case JObject(ms) =>
      (match Get(ms, key)
       case Some(x) => Success(x)
       case None => Success(JNull))
    case _ => Failure(BadDocument)
  }

  /**
   * The envelope check applied to a reply body. A body that is not JSON
   * fails as Unparseable; a document that is not an object fails as
   * BadDocument. An object succeeds, unchanged, exactly when its `result`
   * is "success"; otherwise the failure carries its `result` value as is
   * (`JNull` when the key is missing).
   */
  function Check(body: Option<Json>): (r: Result<Json, Error>)
    ensures r.Success? <==> body.Some? && Succeeded(body.value)
    ensures r.Success? ==> r.value == body.value
    ensures body.None? ==> r == Failure(Unparseable)
    ensures body.Some? && !body.value.JObject? ==> r == Failure(BadDocument)
    ensures body.Some? && body.value.JObject? && r.Failure? ==>
      r.error == RpcFailure(match Get(body.value.members, "result") case Some(v) => v case None => JNull)
  {
    match body
    case None => Failure(Unparseable)
    case Some(doc) =>
      match Index(doc, "result")
      case Failure(e) => Failure(e)
      case Success(result) =>
        if result == JString(SUCCESS) then Success(doc) else Failure(RpcFailure(result))
  }

  /** A `result` other than "success" fails with an error carrying that exact string. */
  lemma CheckCarriesResult(members: seq<(string, Json)>, result: string)
    requires Get(members, "result") == Some(JString(result)) && result != SUCCESS
    ensures Check(Some(JObject(members))) == Failure(RpcFailure(JString(result)))
  {
  }

  /**
   * What `post` makes of a call `r` that sends `req`: the handshake's sends,
   * client and unconsumed replies; the handshake's failure passed through;
   * otherwise the envelope check of the final reply's body.
   */
  predicate Posted(c: Client, req: Request, script: seq<Reply>, r: Call<Json>)
  {
    var h := HttpPost(c, req, script);
    && r.client == h.client && r.sends == h.sends && r.rest == h.rest
    && (h.outcome.Failure? ==> r.outcome == Failure(h.outcome.error))
    && (h.outcome.Success? ==> r.outcome == Check(h.outcome.value.body))
  }

  /**
   * `post`: the handshake, then the envelope check of the reply it returns.
   * The client, the sends and the unconsumed replies are the handshake's;
   * a transport failure passes through; a success is a reply whose parsed
   * body succeeded, returned whole; any other final reply fails as Check
   * says, with the envelope's `result` as the error.
   */
  function Post(c: Client, req: Request, script: seq<Reply>): (r: Call<Json>)
    ensures Posted(c, req, script, r)
    ensures var h := HttpPost(c, req, script);
      r.client == h.client && r.sends == h.sends && r.rest == h.rest
    ensures var h := HttpPost(c, req, script);
      h.outcome.Failure? ==> r.outcome == Failure(h.outcome.error)
    ensures var h := HttpPost(c, req, script);
      r.outcome.Success? ==>
        h.outcome.Success? && h.outcome.value.body == Some(r.outcome.value) && Succeeded(r.outcome.value)
    ensures var h := HttpPost(c, req, script);
      h.outcome.Success? && h.outcome.value.body.Some? && Succeeded(h.outcome.value.body.value) ==>
        r.outcome == Success(h.outcome.value.body.value)
    ensures var h := HttpPost(c, req, script);
      h.outcome.Success? && h.outcome.value.body.Some? && h.outcome.value.body.value.JObject? &&
      !Succeeded(h.outcome.value.body.value) ==>
        r.outcome == Failure(RpcFailure(Index(h.outcome.value.body.value, "result").value))
  {
    var h := HttpPost(c, req, script);
    var outcome :=
      match h.outcome
      case Failure(e) => Failure(e)
      case Success(reply) => Check(reply.body);
    Call(h.client, h.sends, outcome, h.rest)
  }
}

=== FILE: errors.dfy ===
/** The ways a call to the daemon can fail. */
module Errors {
  import opened JsonValue

  datatype Error =
    /** The HTTP exchange did not produce a reply (connection, timeout). */
    | TransportFailure
    /** The reply body is not JSON, so the parser raised. */
    | Unparseable
    /** Ruby raised while indexing a value that is not the expected shape. */
    | BadDocument
    /** The envelope's `result` is not "success"; carries that value (`JNull` for a missing key). */
    | RpcFailure(result: Json)
}

=== FILE: fields.dfy ===
/**
 * The torrent field-selection lists and the list union `Array#|` the client
 * uses to widen them.
 */
module Fields {

  /** The fields requested for a torrent by default. */
  const TORRENT_FIELDS: seq<string> := [
    "id", "name", "totalSize", "addedDate", "status",
    "rateDownload", "rateUpload", "percentDone", "hashString", "files"
  ]

  /**
   * The extra fields added by the extended mode. The "isFinished" line of
   * the source lacks its trailing comma; this model reads the two literals
   * on that line and the next as the single entry "isFinishedisStalled", so
   * the list has 32 entries. That reading is a modelling choice: the lines
   * as written do not form a valid Ruby array.
   */
  const TORRENT_EXTRA_FIELDS: seq<string> := [
    "downloadDir", "error", "errorString", "eta",
    "isFinishedisStalled",
    "leftUntilDone", "metadataPercentComplete", "peersConnected",
    "peersGettingFromUs", "peersSendingToUs", "queuePosition",
    "recheckProgress", "seedRatioLimit", "seedRatioMode", "sizeWhenDone",
    "status", "trackers", "uploadRatio", "uploadedEver",
    "webseedsSendingToUs", "id", "activityDate", "corruptEver",
    "desiredAvailable", "downloadedEver", "fileStats", "haveUnchecked",
    "haveValid", "peers", "startDate", "trackerStats", "hashString"
  ]

  predicate NoDuplicates(s: seq<string>) {
    forall i, j :: 0 <= i < j < |s| ==> s[i] != s[j]
  }

  /** Position of the first occurrence of `x` in `s`. */
  function FirstIndex(s: seq<string>, x: string): (k: nat)
    requires x in s
    ensures k < |s| && s[k] == x
    ensures x !in s[..k]
  {
    if s[0] == x then 0
    else
      var k' := FirstIndex(s[1..], x);
      assert s[..k' + 1] == [s[0]] + s[1..][..k'];
      k' + 1
  }

  /** The first occurrence of `x` is the only position with no earlier `x`. */
  lemma FirstIndexUnique(s: seq<string>, x: string, k: nat)
    requires k < |s| && s[k] == x && x !in s[..k]
    ensures FirstIndex(s, x) == k
  {
  }

  /** A prefix that contains `x` locates its first occurrence where the whole list does. */
  lemma FirstIndexOfPrefix(s: seq<string>, n: nat, x: string)
    requires n <= |s| && x in s[..n]
    ensures FirstIndex(s, x) == FirstIndex(s[..n], x)
  {
    var k := FirstIndex(s[..n], x);
    assert s[..n][..k] == s[..k];
    FirstIndexUnique(s, x, k);
  }

  /**
   * `s` with repeated entries removed, each element kept at its first
   * occurrence: the result is duplicate-free and holds exactly the elements
   * of `s` (DedupKeepsFirstOrder gives their order).
   */
  function Dedup(s: seq<string>): (r: seq<string>)
    ensures NoDuplicates(r)
    ensures forall x :: x in r <==> x in s
    decreases |s|
  {
    if |s| == 0 then []
    else
      var init := s[..|s| - 1];
      var last := s[|s| - 1];
      assert s == init + [last];
      var d := Dedup(init);
      if last in d then d else d + [last]
  }

  /** Dedup lists the elements of `s` in the order of their first occurrences. */
  lemma {:induction false} DedupKeepsFirstOrder(s: seq<string>)
    ensures forall i, j :: 0 <= i < j < |Dedup(s)| ==>
      FirstIndex(s, Dedup(s)[i]) < FirstIndex(s, Dedup(s)[j])
    decreases |s|
  {
    if |s| > 0 {
      var init := s[..|s| - 1];
      var last := s[|s| - 1];
      assert s == init + [last];
      var d := Dedup(init);
      DedupKeepsFirstOrder(init);
      forall y | y in d
        ensures FirstIndex(s, y) == FirstIndex(init, y) < |init|
      {
        FirstIndexOfPrefix(s, |init|, y);
      }
      if last !in d {
        assert last !in s[..|init|];
        FirstIndexUnique(s, last, |init|);
      }
    }
  }

  /** The elements of `b` that do not occur in `a`, in order. */
  function Without(b: seq<string>, a: seq<string>): (r: seq<string>)
    ensures forall x {:trigger x in r} :: x in r <==> x in b && x !in a
    decreases |b|
  {
    if |b| == 0 then []
    else
      var rest := Without(b[..|b| - 1], a);
      assert b == b[..|b| - 1] + [b[|b| - 1]];
      if b[|b| - 1] in a then rest else rest + [b[|b| - 1]]
  }


  /** A duplicate-free list is left as it is by Dedup. */
  lemma {:induction false} DedupOfDistinct(s: seq<string>)
    requires NoDuplicates(s)
    ensures Dedup(s) == s
    decreases |s|
  {
    if |s| > 0 {
      var init := s[..|s| - 1];
      assert NoDuplicates(init);
      DedupOfDistinct(init);
      assert s[|s| - 1] !in init;
      assert init + [s[|s| - 1]] == s;
    }
  }

  /** Dedup of a list extended by one element. */
  lemma DedupSnoc(s: seq<string>, x: string)
    ensures Dedup(s + [x]) == if x in s then Dedup(s) else Dedup(s) + [x]
  {
    assert (s + [x])[..|s|] == s;
  }

  /** Without of a list extended by one element. */
  lemma WithoutSnoc(b: seq<string>, x: string, a: seq<string>)
    ensures Without(b + [x], a) == if x in a then Without(b, a) else Without(b, a) + [x]
  {
    assert (b + [x])[..|b|] == b;
  }

  /** Sequence concatenation regroups freely. */
  lemma Associative<T>(x: seq<T>, y: seq<T>, z: seq<T>)
    ensures x + (y + z) == (x + y) + z
  {
  }

  /** One step of UnionSplits: appending `x` to the added list. */
  lemma UnionSplitsStep(a: seq<string>, b: seq<string>, x: string)
    requires Dedup(a + b) == Dedup(a) + Dedup(Without(b, a))
    ensures Dedup((a + b) + [x]) == Dedup(a) + Dedup(Without(b + [x], a))
  {
    var w := Without(b, a);
    var d := Dedup(a);
    DedupSnoc(a + b, x);
    WithoutSnoc(b, x, a);
    DedupSnoc(w, x);
    if x in a + b {
      if x !in a {
        assert x in w;
      }
    } else {
      Associative(d, Dedup(w), [x]);
    }
  }

  /**
   * The union lists the base's distinct entries first, in their order, then
   * the added list's entries that the base lacks, in theirs.
   */
  lemma {:induction false} UnionSplits(a: seq<string>, b: seq<string>)
    ensures Dedup(a + b) == Dedup(a) + Dedup(Without(b, a))
    decreases |b|
  {
    if |b| == 0 {
      assert a + b == a;
      assert Without(b, a) == [];
      assert Dedup(a) + Dedup([]) == Dedup(a);
    } else {
      var b' := b[..|b| - 1];
      var x := b[|b| - 1];
      assert b == b' + [x];
      assert a + b == (a + b') + [x];
      UnionSplits(a, b');
      UnionSplitsStep(a, b', x);
    }
  }

  /**
   * Ruby's `a | b`: concatenate, then drop repeats keeping first occurrences.
   * The result repeats nothing, holds exactly the elements of both lists, and
   * starts with the base's distinct entries in their order.
   */
  function Union(a: seq<string>, b: seq<string>): (r: seq<string>)
    ensures NoDuplicates(r)
    ensures forall x :: x in r <==> x in a || x in b
    ensures Dedup(a) <= r
  {
    UnionSplits(a, b);
    Dedup(a + b)
  }

  /**
   * Two duplicate-free lists unite into the base followed, in order, by the
   * added list's entries that the base lacks.
   */
  lemma UnionOfDistinct(a: seq<string>, b: seq<string>)
    requires NoDuplicates(a) && NoDuplicates(b)
    ensures Union(a, b) == a + Without(b, a)
  {
    UnionSplits(a, b);
    DedupOfDistinct(a);
    WithoutKeepsDistinct(b, a);
    DedupOfDistinct(Without(b, a));
  }

  /** Without distributes over concatenation of the added list. */
  lemma {:induction false} WithoutAppend(b: seq<string>, c: seq<string>, a: seq<string>)
    ensures Without(b + c, a) == Without(b, a) + Without(c, a)
    decreases |c|
  {
    if |c| == 0 {
      assert b + c == b;
      assert Without(b, a) + [] == Without(b, a);
    } else {
      var c' := c[..|c| - 1];
      var x := c[|c| - 1];
      assert c == c' + [x];
      assert b + c == (b + c') + [x];
      WithoutAppend(b, c', a);
      WithoutSnoc(b + c', x, a);
      WithoutSnoc(c', x, a);
      Associative(Without(b, a), Without(c', a), [x]);
    }
  }

  /** A list sharing no element with `a` passes through Without unchanged. */
  lemma {:induction false} WithoutDisjoint(b: seq<string>, a: seq<string>)
    requires forall i :: 0 <= i < |b| ==> b[i] !in a
    ensures Without(b, a) == b
    decreases |b|
  {
    if |b| > 0 {
      WithoutDisjoint(b[..|b| - 1], a);
      assert b[..|b| - 1] + [b[|b| - 1]] == b;
    }
  }

  /** Where the extra fields meet the default ones. */
  lemma ExtraOverlap()
    ensures forall i :: 0 <= i < 15 ==> TORRENT_EXTRA_FIELDS[i] !in TORRENT_FIELDS
    ensures forall i :: 16 <= i < 20 ==> TORRENT_EXTRA_FIELDS[i] !in TORRENT_FIELDS
    ensures forall i :: 21 <= i < 31 ==> TORRENT_EXTRA_FIELDS[i] !in TORRENT_FIELDS
    ensures TORRENT_EXTRA_FIELDS[15] == "status" && TORRENT_EXTRA_FIELDS[20] == "id"
    ensures TORRENT_EXTRA_FIELDS[31] == "hashString" && |TORRENT_EXTRA_FIELDS| == 32
    ensures "status" in TORRENT_FIELDS && "id" in TORRENT_FIELDS && "hashString" in TORRENT_FIELDS
  {
  }

  /** An element of `a` followed by elements outside `a` contributes only the latter. */
  lemma WithoutGap(pre: seq<string>, x: string, post: seq<string>, a: seq<string>)
    requires x in a
    requires forall n :: 0 <= n < |post| ==> post[n] !in a
    ensures Without(pre + [x] + post, a) == Without(pre, a) + post
  {
    WithoutSnoc(pre, x, a);
    WithoutAppend(pre + [x], post, a);
    WithoutDisjoint(post, a);
  }

  /** Without drops exactly the three listed positions when only they hold elements of `a`. */
  lemma WithoutThreeGaps(e: seq<string>, a: seq<string>, i: nat, j: nat, k: nat)
    requires i < j < k && k == |e| - 1
    requires e[i] in a && e[j] in a && e[k] in a
    requires forall n :: 0 <= n < |e| && n != i && n != j && n != k ==> e[n] !in a
    ensures Without(e, a) == e[..i] + e[i + 1..j] + e[j + 1..k]
  {
    var p1, p2, p3 := e[..i], e[i + 1..j], e[j + 1..k];
    assert e[..j] == p1 + [e[i]] + p2;
    assert e[..k] == e[..j] + [e[j]] + p3;
    assert e == e[..k] + [e[k]] + [];
    WithoutDisjoint(p1, a);
    WithoutGap(p1, e[i], p2, a);
    WithoutGap(e[..j], e[j], p3, a);
    WithoutGap(e[..k], e[k], [], a);
  }

  /**
   * Of the extra fields, exactly "status" (position 15), "id" (20) and
   * "hashString" (31) are already default fields.
   */
  lemma ExtraBeyondDefault()
    ensures Without(TORRENT_EXTRA_FIELDS, TORRENT_FIELDS) ==
      TORRENT_EXTRA_FIELDS[..15] + TORRENT_EXTRA_FIELDS[16..20] + TORRENT_EXTRA_FIELDS[21..31]
  {
    ExtraOverlap();
    WithoutThreeGaps(TORRENT_EXTRA_FIELDS, TORRENT_FIELDS, 15, 20, 31);
  }

  /** Without keeps a duplicate-free list duplicate-free. */
  lemma {:induction false} WithoutKeepsDistinct(b: seq<string>, a: seq<string>)
    requires NoDuplicates(b)
    ensures NoDuplicates(Without(b, a))
    decreases |b|
  {
    if |b| > 0 {
      var b' := b[..|b| - 1];
      var x := b[|b| - 1];
      assert b == b' + [x];
      assert NoDuplicates(b');
      WithoutKeepsDistinct(b', a);
      WithoutSnoc(b', x, a);
      assert x !in b';
      assert x !in Without(b', a);
    }
  }

  /** The default list repeats no entry. */
  lemma DefaultFieldsDistinct()
    ensures NoDuplicates(TORRENT_FIELDS) && |TORRENT_FIELDS| == 10
  {
  }

  /** The extra list repeats no entry. */
  lemma ExtraFieldsDistinct()
    ensures NoDuplicates(TORRENT_EXTRA_FIELDS)
  {
  }

  /** The joined entry sits at position 4 of the extra list. */
  lemma JoinedEntry()
    ensures TORRENT_EXTRA_FIELDS[4] == "isFinishedisStalled"
  {
  }

  /** "isFinished" is listed nowhere. */
  lemma FinishedUnlisted()
    ensures "isFinished" !in TORRENT_FIELDS && "isFinished" !in TORRENT_EXTRA_FIELDS
  {
  }

  /** "isStalled" is listed nowhere. */
  lemma StalledUnlisted()
    ensures "isStalled" !in TORRENT_FIELDS && "isStalled" !in TORRENT_EXTRA_FIELDS
  {
  }

  /** Both field lists are duplicate-free, so their union is the defaults followed by the new extras. */
  lemma DefaultsThenNew()
    ensures Union(TORRENT_FIELDS, TORRENT_EXTRA_FIELDS) ==
      TORRENT_FIELDS + Without(TORRENT_EXTRA_FIELDS, TORRENT_FIELDS)
  {
    DefaultFieldsDistinct();
    ExtraFieldsDistinct();
    UnionOfDistinct(TORRENT_FIELDS, TORRENT_EXTRA_FIELDS);
  }

  /**
   * The extended default list: the 10 default fields in order, then the 29
   * extra fields the defaults lack ("id", "status" and "hashString" overlap).
   */
  lemma DefaultExtendedOrder()
    ensures Union(TORRENT_FIELDS, TORRENT_EXTRA_FIELDS) ==
      TORRENT_FIELDS + (TORRENT_EXTRA_FIELDS[..15] + TORRENT_EXTRA_FIELDS[16..20] + TORRENT_EXTRA_FIELDS[21..31])
  {
    DefaultsThenNew();
    ExtraBeyondDefault();
  }

  /**
   * The extended default list has 39 entries; the joined
   * "isFinishedisStalled" is requested, "isFinished" and "isStalled" are not.
   */
  lemma DefaultExtendedFields()
    ensures |Union(TORRENT_FIELDS, TORRENT_EXTRA_FIELDS)| == 39
    ensures "isFinishedisStalled" in Union(TORRENT_FIELDS, TORRENT_EXTRA_FIELDS)
    ensures "isFinished" !in Union(TORRENT_FIELDS, TORRENT_EXTRA_FIELDS)
    ensures "isStalled" !in Union(TORRENT_FIELDS, TORRENT_EXTRA_FIELDS)
  {
    DefaultExtendedOrder();
    DefaultFieldsDistinct();
    ExtraOverlap();
    JoinedEntry();
    FinishedUnlisted();
    StalledUnlisted();
    var u := Union(TORRENT_FIELDS, TORRENT_EXTRA_FIELDS);
    assert TORRENT_EXTRA_FIELDS[4] in u;
    assert "isFinished" !in TORRENT_FIELDS + TORRENT_EXTRA_FIELDS;
    assert "isStalled" !in TORRENT_FIELDS + TORRENT_EXTRA_FIELDS;
  }
}

=== FILE: json.dfy ===
/**
 * Parsed JSON documents as the client sees them after `JSON.parse`,
 * and what it puts on the wire before `to_json`.
 */
module JsonValue {
  import opened Wrappers

  /** Objects keep their members in document order, duplicates included. */
  datatype Json =
    | JNull
    | JBool(b: bool)
    | JInt(i: int)
    | JString(s: string)
    | JArray(items: seq<Json>)
    | JObject(members: seq<(string, Json)>)

  /** The list of JSON strings naming the given fields. */
  function Strings(names: seq<string>): (r: seq<Json>)
    ensures |r| == |names|
    ensures forall i :: 0 <= i < |names| ==> r[i] == JString(names[i])
  {
    seq(|names|, i requires 0 <= i < |names| => JString(names[i]))
  }

  /**
   * The value bound to `key` in an object's members. A parsed document with
   * a repeated key keeps the last binding, as a Ruby Hash built by the
   * parser does.
   */
  function Get(members: seq<(string, Json)>, key: string): (r: Option<Json>)
    ensures r.None? <==> forall i :: 0 <= i < |members| ==> members[i].0 != key
    ensures r.Some? ==>
      exists i :: 0 <= i < |members| && members[i] == (key, r.value) &&
        forall j :: i < j < |members| ==> members[j].0 != key
    decreases |members|
  {
    if |members| == 0 then None
    else if members[|members| - 1].0 == key then Some(members[|members| - 1].1)
    else Get(members[..|members| - 1], key)
  }

  /** The keys of an object's members, in order. */
  function Keys(members: seq<(string, Json)>): (r: seq<string>)
    ensures |r| == |members|
    ensures forall i :: 0 <= i < |members| ==> r[i] == members[i].0
  {
    seq(|members|, i requires 0 <= i < |members| => members[i].0)
  }
}

=== FILE: operations.dfy ===
/**
 * The public operations of the client: each builds its request, goes
 * through `post`, and picks its answer out of the success envelope.
 */
module Operations {
  import opened Wrappers
  import opened JsonValue
  import opened Errors
  import opened Requests
  import opened Session
  import opened Envelope
  import opened Fields

  /** `response["arguments"][key]` on a success envelope. */
  function Payload(doc: Json, key: string): (r: Result<Json, Error>)
    ensures r.Success? <==> doc.JObject? && Index(doc, "arguments").value.JObject?
    ensures r.Success? ==> Index(doc, "arguments").Success? && r == Index(Index(doc, "arguments").value, key)
    ensures r.Failure? ==> r.error == BadDocument
  {
    match Index(doc, "arguments")
    case Failure(e) => Failure(e)
    case Success(args) => Index(args, key)
  }

  /**
   * Ruby's `first`. On a list it is the first element. On an object (a Ruby
   * Hash) it is the first key, paired with the value that key ends up
   * bound to. It is nothing when either is empty, and Ruby raises on any
   * other value.
   */
  function FirstOf(v: Json): (r: Result<Option<Json>, Error>)
    ensures r.Success? <==> v.JArray? || v.JObject?
    ensures r.Failure? ==> r.error == BadDocument
    ensures v.JArray? ==> (r.value.None? <==> |v.items| == 0)
    ensures v.JArray? && r.value.Some? ==> r.value.value == v.items[0]
    ensures v.JObject? ==> (r.value.None? <==> |v.members| == 0)
    ensures v.JObject? && r.value.Some? ==>
      var key := v.members[0].0;
      Get(v.members, key).Some? && r.value.value == JArray([JString(key), Get(v.members, key).value])
  {
    match v
    case JArray(items) => Success(if |items| == 0 then None else Some(items[0]))
    case JObject(ms) =>
      if |ms| == 0 then Success(None)
      else Success(Some(JArray([JString(ms[0].0), Get(ms, ms[0].0).value])))
    case _ => Failure(BadDocument)
  }

  /** The record field `find_by_hash` compares. */
  const HASH_FIELD: string := "hashString"

  /** A torrent record whose "hashString" is `h`. */
  predicate HasHash(t: Json, h: string)
  {
    t.JObject? && Get(t.members, HASH_FIELD) == Some(JString(h))
  }

  /** Ruby's `select`: the records with hash `h`, in their order. */
  function Select(records: seq<Json>, h: string): (r: seq<Json>)
    ensures forall i :: 0 <= i < |r| ==> HasHash(r[i], h) && r[i] in records
    ensures forall t :: t in records && HasHash(t, h) ==> t in r
    decreases |records|
  {
    if |records| == 0 then []
    else
      var rest := Select(records[1..], h);
      assert forall t :: t in records[1..] ==> t in records;
      assert forall t :: t in records ==> t == records[0] || t in records[1..];
      if HasHash(records[0], h) then [records[0]] + rest else rest
  }

  /** `select` on one record keeps it exactly when it has the hash. */
  lemma SelectSingle(t: Json, h: string)
    ensures Select([t], h) == if HasHash(t, h) then [t] else []
  {
    assert [t][1..] == [];
  }

  /** `select` keeps order and multiplicity: selecting from `a + b` is selecting from `a`, then from `b`. */
  lemma {:induction false} SelectAppend(a: seq<Json>, b: seq<Json>, h: string)
    ensures Select(a + b, h) == Select(a, h) + Select(b, h)
    decreases |a|
  {
    if |a| == 0 {
      assert a + b == b;
    } else {
      assert (a + b)[0] == a[0];
      assert (a + b)[1..] == a[1..] + b;
      SelectAppend(a[1..], b, h);
    }
  }

  /** The first record `select` keeps is the earliest matching record. */
  lemma {:induction false} SelectStartsAtEarliest(records: seq<Json>, h: string)
    requires |Select(records, h)| > 0
    ensures exists i :: 0 <= i < |records| && records[i] == Select(records, h)[0] &&
                        forall j :: 0 <= j < i ==> !HasHash(records[j], h)
    decreases |records|
  {
    if !HasHash(records[0], h) {
      SelectStartsAtEarliest(records[1..], h);
      var i :| 0 <= i < |records[1..]| && records[1..][i] == Select(records[1..], h)[0] &&
        forall j :: 0 <= j < i ==> !HasHash(records[1..][j], h);
      assert records[i + 1] == Select(records, h)[0];
      forall j | 0 <= j < i + 1
        ensures !HasHash(records[j], h)
      {
        if j > 0 {
          assert records[j] == records[1..][j - 1];
        }
      }
    } else {
      assert records[0] == Select(records, h)[0];
    }
  }

  /**
   * `select { |t| t["hashString"] == h }.first`: the earliest record whose
   * hash is `h`, and nothing exactly when no record has it.
   */
  function FirstWithHash(records: seq<Json>, h: string): (r: Option<Json>)
    ensures r.None? <==> forall i :: 0 <= i < |records| ==> !HasHash(records[i], h)
    ensures r.Some? ==> HasHash(r.value, h)
    ensures r.Some? ==>
      exists i :: 0 <= i < |records| && records[i] == r.value &&
                  forall j :: 0 <= j < i ==> !HasHash(records[j], h)
  {
    var matches := Select(records, h);
    if |matches| == 0 then None
    else
      SelectStartsAtEarliest(records, h);
      Some(matches[0])
  }

  /** The list at `arguments.torrents` of a success envelope, when there is one. */
  function Torrents(doc: Json): Option<seq<Json>>
  {
    match Payload(doc, "torrents")
    case Success(JArray(ts)) => Some(ts)
    case _ => None
  }

  /** A call that ends where `p` ends, with outcome `outcome`. */
  function Then<T>(p: Call<Json>, outcome: Result<T, Error>): Call<T>
  {
    Call(p.client, p.sends, outcome, p.rest)
  }

  /**
   * `all`: every torrent, asked for with the client's field list (a field
   * list passed by the caller never reaches the request). The answer is
   * `arguments.torrents` of the success envelope, whatever it holds.
   */
  function All(c: Client, script: seq<Reply>): (r: Call<Json>)
    ensures forall s :: s in r.sends ==> FromBody(s.body) == Some(AllRequest(c.fields))
    ensures var p := Post(c, AllRequest(c.fields), script);
      r.client == p.client && r.sends == p.sends && r.rest == p.rest
    ensures var p := Post(c, AllRequest(c.fields), script);
      p.outcome.Failure? ==> r.outcome == Failure(p.outcome.error)
    ensures var p := Post(c, AllRequest(c.fields), script);
      p.outcome.Success? ==> r.outcome == Payload(p.outcome.value, "torrents")
    ensures var p := Post(c, AllRequest(c.fields), script);
      p.outcome.Success? && Torrents(p.outcome.value).Some? ==>
        r.outcome == Success(JArray(Torrents(p.outcome.value).value))
  {
    var p := Post(c, AllRequest(c.fields), script);
    BodyRoundTrip(AllRequest(c.fields));
    match p.outcome
    case Failure(e) => Then(p, Failure(e))
    case Success(doc) => Then(p, Payload(doc, "torrents"))
  }

  /**
   * `find(id)`: ask for torrent `id` with the client's field list; the answer
   * is `first` of `arguments.torrents`: its first record, or nothing when
   * that list is empty.
   */
  function Find(c: Client, id: Json, script: seq<Reply>): (r: Call<Option<Json>>)
    ensures forall s :: s in r.sends ==> FromBody(s.body) == Some(FindRequest(c.fields, id))
    ensures var p := Post(c, FindRequest(c.fields, id), script);
      r.client == p.client && r.sends == p.sends && r.rest == p.rest
    ensures var p := Post(c, FindRequest(c.fields, id), script);
      p.outcome.Failure? ==> r.outcome == Failure(p.outcome.error)
    ensures var p := Post(c, FindRequest(c.fields, id), script);
      r.outcome.Success? ==> p.outcome.Success? && Payload(p.outcome.value, "torrents").Success?
    ensures var p := Post(c, FindRequest(c.fields, id), script);
      p.outcome.Success? && Payload(p.outcome.value, "torrents").Success? ==>
        r.outcome == FirstOf(Payload(p.outcome.value, "torrents").value)
    ensures var p := Post(c, FindRequest(c.fields, id), script);
      p.outcome.Success? && Payload(p.outcome.value, "torrents").Failure? ==> r.outcome == Failure(BadDocument)
    ensures var p := Post(c, FindRequest(c.fields, id), script);
      p.outcome.Success? && Torrents(p.outcome.value).Some? ==>
        var ts := Torrents(p.outcome.value).value;
        r.outcome == Success(if |ts| == 0 then None else Some(ts[0]))
  {
    var p := Post(c, FindRequest(c.fields, id), script);
    BodyRoundTrip(FindRequest(c.fields, id));
    match p.outcome
    case Failure(e) => Then(p, Failure(e))
    case Success(doc) =>
      match Payload(doc, "torrents")
      case Failure(e) => Then(p, Failure(e))
      case Success(ts) => Then(p, FirstOf(ts))
  }

  /**
   * `find_by_hash(h)`: list every torrent and return the earliest whose
   * "hashString" is `h`, or nothing when none is. When the listing is an
   * object (a Ruby Hash), `select` hands the block each key, a string, whose
   * `["hashString"]` is nil or "hashString": nothing matches unless `h` is
   * that very string, and nothing matches in an empty object.
   */
  function FindByHash(c: Client, h: string, script: seq<Reply>): (r: Call<Option<Json>>)
    ensures forall s :: s in r.sends ==> FromBody(s.body) == Some(AllRequest(c.fields))
    ensures var p := Post(c, AllRequest(c.fields), script);
      r.client == p.client && r.sends == p.sends && r.rest == p.rest
    ensures r.outcome.Success? && r.outcome.value.Some? ==> HasHash(r.outcome.value.value, h)
    ensures var p := Post(c, AllRequest(c.fields), script);
      p.outcome.Failure? ==> r.outcome == Failure(p.outcome.error)
    ensures var p := Post(c, AllRequest(c.fields), script);
      p.outcome.Success? && Torrents(p.outcome.value).Some? ==>
        r.outcome == Success(FirstWithHash(Torrents(p.outcome.value).value, h))
    ensures var p := Post(c, AllRequest(c.fields), script);
      p.outcome.Success? && Payload(p.outcome.value, "torrents").Success? &&
      Payload(p.outcome.value, "torrents").value.JObject? &&
      (|Payload(p.outcome.value, "torrents").value.members| == 0 || h != HASH_FIELD) ==>
        r.outcome == Success(None)
    ensures var p := Post(c, AllRequest(c.fields), script);
      r.outcome.Success? ==>
        && p.outcome.Success? && Payload(p.outcome.value, "torrents").Success?
        && (Payload(p.outcome.value, "torrents").value.JArray? || Payload(p.outcome.value, "torrents").value.JObject?)
    ensures var p := Post(c, AllRequest(c.fields), script);
      p.outcome.Success? &&
      (|| Payload(p.outcome.value, "torrents").Failure?
       || !(Payload(p.outcome.value, "torrents").value.JArray? || Payload(p.outcome.value, "torrents").value.JObject?)) ==>
        r.outcome == Failure(BadDocument)
  {
    var a := All(c, script);
    match a.outcome
    case Failure(e) => Then(a, Failure(e))
    case Success(JArray(records)) => Then(a, Success(FirstWithHash(records, h)))
    case Success(JObject(ms)) => Then(a, if |ms| == 0 || h != HASH_FIELD then Success(None) else Failure(BadDocument))
    case Success(_) => Then(a, Failure(BadDocument))
  }

  /** `create(filename)`: add a torrent; the answer is `arguments["torrent-added"]`. */
  function Create(c: Client, filename: string, script: seq<Reply>): (r: Call<Json>)
    ensures forall s :: s in r.sends ==> FromBody(s.body) == Some(CreateRequest(filename))
    ensures var p := Post(c, CreateRequest(filename), script);
      r.client == p.client && r.sends == p.sends && r.rest == p.rest
    ensures var p := Post(c, CreateRequest(filename), script);
      p.outcome.Failure? ==> r.outcome == Failure(p.outcome.error)
    ensures var p := Post(c, CreateRequest(filename), script);
      r.outcome.Success? <==> p.outcome.Success? && Payload(p.outcome.value, "torrent-added").Success?
    ensures var p := Post(c, CreateRequest(filename), script);
      p.outcome.Success? ==> r.outcome == Payload(p.outcome.value, "torrent-added")
  {
    var p := Post(c, CreateRequest(filename), script);
    BodyRoundTrip(CreateRequest(filename));
    match p.outcome
    case Failure(e) => Then(p, Failure(e))
    case Success(doc) => Then(p, Payload(doc, "torrent-added"))
  }

  /**
   * The operations that answer with the whole envelope (`start`, `stop`,
   * `destroy`, `config_set`): exactly `post` of `req`. Every send carries
   * `req`; a success is the final reply's body, whose `result` is "success";
   * any other final reply fails as the envelope check says.
   */
  function WholeEnvelope(c: Client, req: Request, script: seq<Reply>): (r: Call<Json>)
    ensures Posted(c, req, script, r)
    ensures forall s :: s in r.sends ==> FromBody(s.body) == Some(req)
    ensures r.outcome.Success? ==> Succeeded(r.outcome.value)
    ensures r.outcome.Success? ==>
      HttpPost(c, req, script).outcome.Success? &&
      HttpPost(c, req, script).outcome.value.body == Some(r.outcome.value)
    ensures var h := HttpPost(c, req, script);
      h.outcome.Success? && h.outcome.value.body.Some? && Succeeded(h.outcome.value.body.value) ==>
        r.outcome == Success(h.outcome.value.body.value)
    ensures HttpPost(c, req, script).outcome.Failure? ==>
      r.outcome == Failure(HttpPost(c, req, script).outcome.error)
  {
    BodyRoundTrip(req);
    Post(c, req, script)
  }

  /** `start(id)`: ask the daemon to start torrent `id`; the answer is the whole envelope. */
  function Start(c: Client, id: Json, script: seq<Reply>): (r: Call<Json>)
    ensures Posted(c, StartRequest(id), script, r)
    ensures forall s :: s in r.sends ==> FromBody(s.body) == Some(StartRequest(id))
    ensures r.outcome.Success? ==> Succeeded(r.outcome.value)
  {
    WholeEnvelope(c, StartRequest(id), script)
  }

  /** `stop(id)`: ask the daemon to stop torrent `id`; the answer is the whole envelope. */
  function Stop(c: Client, id: Json, script: seq<Reply>): (r: Call<Json>)
    ensures Posted(c, StopRequest(id), script, r)
    ensures forall s :: s in r.sends ==> FromBody(s.body) == Some(StopRequest(id))
    ensures r.outcome.Success? ==> Succeeded(r.outcome.value)
  {
    WholeEnvelope(c, StopRequest(id), script)
  }

  /**
   * `destroy(id, trashdata)`: remove torrent `id`, deleting its data only when
   * asked (`None` stands for the omitted argument, which is false).
   */
  function Destroy(c: Client, id: Json, trashData: Option<bool>, script: seq<Reply>): (r: Call<Json>)
    ensures Posted(c, DestroyRequest(id, trashData), script, r)
    ensures forall s :: s in r.sends ==> FromBody(s.body) == Some(DestroyRequest(id, trashData))
    ensures r.outcome.Success? ==> Succeeded(r.outcome.value)
  {
    WholeEnvelope(c, DestroyRequest(id, trashData), script)
  }

  /** `config_set(config)`: send `config` as the new settings; the answer is the whole envelope. */
  function ConfigSet(c: Client, config: Json, script: seq<Reply>): (r: Call<Json>)
    ensures Posted(c, ConfigSetRequest(config), script, r)
    ensures forall s :: s in r.sends ==> FromBody(s.body) == Some(ConfigSetRequest(config))
    ensures r.outcome.Success? ==> Succeeded(r.outcome.value)
  {
    WholeEnvelope(c, ConfigSetRequest(config), script)
  }

  /**
   * `config_get`: read the daemon's settings; the answer is the envelope's
   * `arguments` (`JNull`, Ruby's nil, when it has none), and it fails only
   * as `post` does.
   */
  function ConfigGet(c: Client, script: seq<Reply>): (r: Call<Json>)
    ensures forall s :: s in r.sends ==> FromBody(s.body) == Some(ConfigGetRequest())
    ensures var p := Post(c, ConfigGetRequest(), script);
      r.client == p.client && r.sends == p.sends && r.rest == p.rest
    ensures var p := Post(c, ConfigGetRequest(), script);
      r.outcome.Success? <==> p.outcome.Success?
    ensures var p := Post(c, ConfigGetRequest(), script);
      p.outcome.Failure? ==> r.outcome == Failure(p.outcome.error)
    ensures var p := Post(c, ConfigGetRequest(), script);
      p.outcome.Success? ==> r.outcome == Index(p.outcome.value, "arguments")
    ensures var p := Post(c, ConfigGetRequest(), script);
      p.outcome.Success? && Get(p.outcome.value.members, "arguments").None? ==>
        r.outcome == Success(JNull)
  {
    var p := Post(c, ConfigGetRequest(), script);
    BodyRoundTrip(ConfigGetRequest());
    match p.outcome
    case Failure(e) => Then(p, Failure(e))
    case Success(doc) => Then(p, Index(doc, "arguments"))
  }

  /**
   * What `find_each` hands its block, in order: one `find` answer per listed
   * torrent, and the error that ended the walk early, if one did.
   */
  datatype Each = Each(client: Client, sends: seq<Send>, yielded: seq<Option<Json>>, failure: Option<Error>, rest: seq<Reply>)

  /** A send whose body is a `torrent-get` request for the given field list. */
  predicate AsksWithFields(s: Send, fields: seq<string>)
  {
    && FromBody(s.body).Some?
    && FromBody(s.body).value.name == "torrent-get"
    && Arg(FromBody(s.body).value, "fields") == Some(JArray(Strings(fields)))
  }

  /**
   * The walk of `find_each` over the listed torrents: for each, read its
   * "id" and `find` it, stopping at the first failure. It yields one answer
   * per torrent exactly when nothing failed, sends only `torrent-get`
   * requests with the client's field list, and changes nothing in the
   * client but its session token. Its first step is `find` of the first
   * torrent's id: that call's requests come first, and its answer is the
   * first one yielded.
   */
  function FindEachOf(c: Client, listed: seq<Json>, script: seq<Reply>): (r: Each)
    ensures |r.yielded| <= |listed|
    ensures r.failure.None? <==> |r.yielded| == |listed|
    ensures r.client == c.(sessionId := r.client.sessionId)
    ensures forall s :: s in r.sends ==> AsksWithFields(s, c.fields)
    ensures |listed| > 0 && Index(listed[0], "id").Failure? ==>
      r.sends == [] && r.yielded == [] && r.failure == Some(Index(listed[0], "id").error)
    ensures |listed| > 0 && Index(listed[0], "id").Success? ==>
      var f := Find(c, Index(listed[0], "id").value, script);
      && f.sends <= r.sends
      && (f.outcome.Failure? ==> r.yielded == [] && r.failure == Some(f.outcome.error))
      && (f.outcome.Success? ==> |r.yielded| >= 1 && r.yielded[0] == f.outcome.value)
    decreases |listed|
  {
    if |listed| == 0 then Each(c, [], [], None, script)
    else
      match Index(listed[0], "id")
      case Failure(e) => Each(c, [], [], Some(e), script)
      case Success(id) =>
        var f := Find(c, id, script);
        match f.outcome
        case Failure(e) => Each(f.client, f.sends, [], Some(e), f.rest)
        case Success(t) =>
          var more := FindEachOf(f.client, listed[1..], f.rest);
          Each(more.client, f.sends + more.sends, [t] + more.yielded, more.failure, more.rest)
  }

  /**
   * One step of the walk on a non-empty list whose first `find` succeeds:
   * that call's requests, then the walk over the remaining torrents from the
   * client and replies it left; its answer, then the remaining answers.
   */
  lemma FindEachOfStep(c: Client, listed: seq<Json>, script: seq<Reply>)
    requires |listed| > 0 && Index(listed[0], "id").Success?
    requires Find(c, Index(listed[0], "id").value, script).outcome.Success?
    ensures var f := Find(c, Index(listed[0], "id").value, script);
      var more := FindEachOf(f.client, listed[1..], f.rest);
      FindEachOf(c, listed, script) ==
        Each(more.client, f.sends + more.sends, [f.outcome.value] + more.yielded, more.failure, more.rest)
  {
  }

  /**
   * The walk over a single torrent is one `find` of its id: the same
   * requests, client and leftover replies, and that call's answer yielded
   * or its error reported.
   */
  lemma FindEachOfSingle(c: Client, t: Json, script: seq<Reply>)
    requires Index(t, "id").Success?
    ensures var r := FindEachOf(c, [t], script);
      var f := Find(c, Index(t, "id").value, script);
      && r.sends == f.sends && r.client == f.client && r.rest == f.rest
      && (f.outcome.Success? ==> r.yielded == [f.outcome.value] && r.failure == None)
      && (f.outcome.Failure? ==> r.yielded == [] && r.failure == Some(f.outcome.error))
  {
    var f := Find(c, Index(t, "id").value, script);
    assert [t][0] == t && [t][1..] == [];
    if f.outcome.Success? {
      FindEachOfStep(c, [t], script);
      assert f.sends + [] == f.sends;
      assert [f.outcome.value] + [] == [f.outcome.value];
    }
  }

  /** The block's first call for one listed torrent: read its `['id']`, then `find` that id. */
  function FetchById(c: Client, t: Json, script: seq<Reply>): Call<Option<Json>>
  {
    match Index(t, "id")
    case Failure(e) => Call(c, [], Failure(e), script)
    case Success(id) => Find(c, id, script)
  }

  /**
   * `each` over the listed torrents with any `fetch` as the block's call,
   * threading the client and the replies and stopping at the first failure.
   */
  function Walk(fetch: (Client, Json, seq<Reply>) -> Call<Option<Json>>, c: Client, listed: seq<Json>, script: seq<Reply>): Each
    decreases |listed|
  {
    if |listed| == 0 then Each(c, [], [], None, script)
    else
      var f := fetch(c, listed[0], script);
      match f.outcome
      case Failure(e) => Each(f.client, f.sends, [], Some(e), f.rest)
      case Success(t) =>
        var more := Walk(fetch, f.client, listed[1..], f.rest);
        Each(more.client, f.sends + more.sends, [t] + more.yielded, more.failure, more.rest)
  }

  /** A walk that fails on `a` fails the same way on `a + b`. */
  lemma {:induction false} WalkAppendFailed(fetch: (Client, Json, seq<Reply>) -> Call<Option<Json>>, c: Client, a: seq<Json>, b: seq<Json>, script: seq<Reply>)
    requires Walk(fetch, c, a, script).failure.Some?
    ensures Walk(fetch, c, a + b, script) == Walk(fetch, c, a, script)
    decreases |a|
  {
    assert (a + b)[0] == a[0];
    assert (a + b)[1..] == a[1..] + b;
    var f := fetch(c, a[0], script);
    if f.outcome.Success? {
      WalkAppendFailed(fetch, f.client, a[1..], b, f.rest);
    }
  }

  /** A walk over `a + b` whose walk over `a` does not fail continues with the walk over `b` where it left off. */
  lemma {:induction false} WalkAppend(fetch: (Client, Json, seq<Reply>) -> Call<Option<Json>>, c: Client, a: seq<Json>, b: seq<Json>, script: seq<Reply>)
    requires Walk(fetch, c, a, script).failure.None?
    ensures var w := Walk(fetch, c, a, script);
      var v := Walk(fetch, w.client, b, w.rest);
      Walk(fetch, c, a + b, script) == Each(v.client, w.sends + v.sends, w.yielded + v.yielded, v.failure, v.rest)
    decreases |a|
  {
    if |a| == 0 {
      assert a + b == b;
      var v := Walk(fetch, c, b, script);
      assert [] + v.sends == v.sends;
      assert [] + v.yielded == v.yielded;
    } else {
      assert (a + b)[0] == a[0];
      assert (a + b)[1..] == a[1..] + b;
      var f := fetch(c, a[0], script);
      WalkAppend(fetch, f.client, a[1..], b, f.rest);
      var w' := Walk(fetch, f.client, a[1..], f.rest);
      var v := Walk(fetch, w'.client, b, w'.rest);
      Associative(f.sends, w'.sends, v.sends);
      Associative([f.outcome.value], w'.yielded, v.yielded);
    }
  }

  /** The walk of `find_each` is the generic walk whose block call is FetchById. */
  lemma {:induction false} FindEachOfIsWalk(c: Client, listed: seq<Json>, script: seq<Reply>)
    ensures FindEachOf(c, listed, script) == Walk(FetchById, c, listed, script)
    decreases |listed|
  {
    if |listed| > 0 {
      var f := FetchById(c, listed[0], script);
      if f.outcome.Success? {
        FindEachOfIsWalk(f.client, listed[1..], f.rest);
      }
    }
  }

  /** A walk that fails on the torrents `a` fails the same way on `a + b`: nothing after the failure is fetched. */
  lemma FindEachOfAppendFailed(c: Client, a: seq<Json>, b: seq<Json>, script: seq<Reply>)
    ensures FindEachOf(c, a, script).failure.Some? ==> FindEachOf(c, a + b, script) == FindEachOf(c, a, script)
  {
    if FindEachOf(c, a, script).failure.Some? {
      FindEachOfIsWalk(c, a, script);
      FindEachOfIsWalk(c, a + b, script);
      WalkAppendFailed(FetchById, c, a, b, script);
    }
  }

  /**
   * A walk over the torrents `a + b` whose walk over `a` does not fail is
   * that walk followed by the walk over `b`, from the client and replies it
   * left: its requests, then `b`'s; its answers, then `b`'s.
   */
  lemma FindEachOfAppend(c: Client, a: seq<Json>, b: seq<Json>, script: seq<Reply>)
    ensures var w := FindEachOf(c, a, script);
      var v := FindEachOf(w.client, b, w.rest);
      w.failure.None? ==>
        FindEachOf(c, a + b, script) == Each(v.client, w.sends + v.sends, w.yielded + v.yielded, v.failure, v.rest)
  {
    var w := FindEachOf(c, a, script);
    if w.failure.None? {
      FindEachOfIsWalk(c, a, script);
      FindEachOfIsWalk(c, a + b, script);
      FindEachOfIsWalk(w.client, b, w.rest);
      WalkAppend(FetchById, c, a, b, script);
    }
  }

  /** An empty object: Ruby's `each` over it yields nothing. */
  predicate EmptyHash(v: Json)
  {
    v == JObject([])
  }

  /**
   * The torrents `find_each` walks: `arguments.torrents` when it is a list,
   * nothing when it is an empty object. Ruby raises on anything else: `nil`
   * and scalars have no `each`, and each entry of a non-empty object is a
   * key/value pair, which `t['id']` rejects.
   */
  function Listed(outcome: Result<Json, Error>): (r: Result<seq<Json>, Error>)
    ensures r.Success? <==>
      outcome.Success? &&
      (Torrents(outcome.value).Some? ||
       (Payload(outcome.value, "torrents").Success? && EmptyHash(Payload(outcome.value, "torrents").value)))
    ensures r.Success? && Torrents(outcome.value).Some? ==> r.value == Torrents(outcome.value).value
    ensures r.Success? && Torrents(outcome.value).None? ==> r.value == []
    ensures outcome.Failure? ==> r == Failure(outcome.error)
  {
    match outcome
    case Failure(e) => Failure(e)
    case Success(doc) =>
      match Payload(doc, "torrents")
      case Failure(e) => Failure(e)
      case Success(JArray(ts)) => Success(ts)
      case Success(v) => if EmptyHash(v) then Success([]) else Failure(BadDocument)
  }

  /**
   * `find_each`: list every torrent's id, then walk the list as FindEachOf
   * does. The listing's requests come first; a listing that fails ends the
   * walk before any `find`; otherwise the walk continues from the client and
   * replies the listing left, and ends without failure exactly when one
   * answer was yielded per listed torrent.
   */
  function FindEach(c: Client, script: seq<Reply>): (r: Each)
    ensures |r.sends| >= 1 && FromBody(r.sends[0].body) == Some(IdListRequest())
    ensures r.client == c.(sessionId := r.client.sessionId)
    ensures var listed := Listed(Post(c, IdListRequest(), script).outcome);
      r.failure.None? <==> listed.Success? && |r.yielded| == |listed.value|
    ensures var p := Post(c, IdListRequest(), script);
      var listed := Listed(p.outcome);
      listed.Failure? ==>
        r.sends == p.sends && r.yielded == [] && r.failure == Some(listed.error) && r.client == p.client
        && r.rest == p.rest
    ensures var p := Post(c, IdListRequest(), script);
      var listed := Listed(p.outcome);
      listed.Success? ==>
        var w := FindEachOf(p.client, listed.value, p.rest);
        && r.sends == p.sends + w.sends && r.yielded == w.yielded && r.failure == w.failure
        && r.client == w.client && r.rest == w.rest
  {
    var p := Post(c, IdListRequest(), script);
    BodyRoundTrip(IdListRequest());
    match Listed(p.outcome)
    case Failure(e) => Each(p.client, p.sends, [], Some(e), p.rest)
    case Success(listed) =>
      var w := FindEachOf(p.client, listed, p.rest);
      Each(w.client, p.sends + w.sends, w.yielded, w.failure, w.rest)
  }
}

=== FILE: requests.dfy ===
/**
 * The RPC requests the client sends: a method name and, except for
 * `session-get`, an `arguments` value, serialised as the JSON object
 * `{"method": ..., "arguments": ...}` in that key order.
 */
module Requests {
  import opened Wrappers
  import opened JsonValue

  datatype Request = Request(name: string, arguments: Option<Json>)

  /**
   * The request body: an object whose keys are exactly "method" and, when
   * the request has arguments, "arguments", bound to the request's values.
   */
  function Body(req: Request): (doc: Json)
    ensures doc.JObject?
    ensures Keys(doc.members) == if req.arguments.Some? then ["method", "arguments"] else ["method"]
    ensures Get(doc.members, "method") == Some(JString(req.name))
    ensures Get(doc.members, "arguments") == req.arguments
  {
    var head := [("method", JString(req.name))];
    match req.arguments
    case None => JObject(head)
    case Some(args) => JObject(head + [("arguments", args)])
  }

  /** Reads a request back from a body; `None` for anything Body does not produce. */
  function FromBody(doc: Json): Option<Request>
  {
    match doc
    case JObject(ms) =>
      if |ms| == 1 && ms[0].0 == "method" && ms[0].1.JString? then
        Some(Request(ms[0].1.s, None))
      else if |ms| == 2 && ms[0].0 == "method" && ms[0].1.JString? && ms[1].0 == "arguments" then
        Some(Request(ms[0].1.s, Some(ms[1].1)))
      else None
    case _ => None
  }

  /** The body carries exactly the method and arguments supplied: reading it back gives the request. */
  lemma BodyRoundTrip(req: Request)
    ensures FromBody(Body(req)) == Some(req)
  {
  }

  /** Conversely, a body that reads back as a request is that request's body. */
  lemma FromBodyInverse(doc: Json, req: Request)
    requires FromBody(doc) == Some(req)
    ensures Body(req) == doc
  {
    assert doc.JObject?;
    var ms := doc.members;
    if |ms| == 1 {
      assert ms == [("method", JString(req.name))];
    } else {
      assert ms == [("method", JString(req.name)), ("arguments", req.arguments.value)];
    }
  }

  /** The value of an argument, when the arguments are an object holding `key`. */
  function Arg(req: Request, key: string): Option<Json>
  {
    match req.arguments
    case Some(JObject(ms)) => Get(ms, key)
    case _ => None
  }

  /** The argument keys, in order; empty when there are no object arguments. */
  function ArgKeys(req: Request): seq<string>
  {
    match req.arguments
    case Some(JObject(ms)) => Keys(ms)
    case _ => []
  }

  /** `all`: list every torrent with the given fields. */
  function AllRequest(fields: seq<string>): (r: Request)
    ensures r.name == "torrent-get" && ArgKeys(r) == ["fields"]
    ensures Arg(r, "fields") == Some(JArray(Strings(fields)))
  {
    Request("torrent-get", Some(JObject([("fields", JArray(Strings(fields)))])))
  }

  /** `find_each`'s first step: list every torrent's id only. */
  function IdListRequest(): (r: Request)
    ensures r.name == "torrent-get" && ArgKeys(r) == ["fields"]
    ensures Arg(r, "fields") == Some(JArray([JString("id")]))
  {
    Request("torrent-get", Some(JObject([("fields", JArray([JString("id")]))])))
  }

  /** `find(id)`: one torrent with the given fields. */
  function FindRequest(fields: seq<string>, id: Json): (r: Request)
    ensures r.name == "torrent-get" && ArgKeys(r) == ["fields", "ids"]
    ensures Arg(r, "fields") == Some(JArray(Strings(fields)))
    ensures Arg(r, "ids") == Some(JArray([id]))
  {
    var ms := [("fields", JArray(Strings(fields))), ("ids", JArray([id]))];
    assert ms[..1] == [("fields", JArray(Strings(fields)))];
    assert Get(ms, "fields") == Get(ms[..1], "fields");
    assert Keys(ms) == ["fields", "ids"];
    Request("torrent-get", Some(JObject(ms)))
  }

  /** `create(filename)`: add a torrent from a file name or URL. */
  function CreateRequest(filename: string): (r: Request)
    ensures r.name == "torrent-add" && ArgKeys(r) == ["filename"]
    ensures Arg(r, "filename") == Some(JString(filename))
  {
    Request("torrent-add", Some(JObject([("filename", JString(filename))])))
  }

  /** The requests `start`, `stop` and `destroy` share: a fixed method on `ids = [id]`. */
  function IdsRequest(name: string, id: Json): (r: Request)
    ensures r.name == name && ArgKeys(r) == ["ids"]
    ensures Arg(r, "ids") == Some(JArray([id]))
  {
    Request(name, Some(JObject([("ids", JArray([id]))])))
  }

  function StartRequest(id: Json): (r: Request)
    ensures r.name == "torrent-start" && ArgKeys(r) == ["ids"]
    ensures Arg(r, "ids") == Some(JArray([id]))
  {
    IdsRequest("torrent-start", id)
  }

  function StopRequest(id: Json): (r: Request)
    ensures r.name == "torrent-stop" && ArgKeys(r) == ["ids"]
    ensures Arg(r, "ids") == Some(JArray([id]))
  {
    IdsRequest("torrent-stop", id)
  }

  /**
   * `destroy(id, trashdata = false)`: `trashData` is `None` when the caller
   * omits the argument, which then defaults to false. The key keeps the
   * daemon's hyphenated spelling.
   */
  function DestroyRequest(id: Json, trashData: Option<bool>): (r: Request)
    ensures r.name == "torrent-remove" && ArgKeys(r) == ["ids", "delete-local-data"]
    ensures Arg(r, "ids") == Some(JArray([id]))
    ensures Arg(r, "delete-local-data") == Some(JBool(trashData.Some? && trashData.value))
  {
    var trash := match trashData case None => false case Some(t) => t;
    var ms := [("ids", JArray([id])), ("delete-local-data", JBool(trash))];
    assert ms[..1] == [("ids", JArray([id]))];
    assert Get(ms, "ids") == Get(ms[..1], "ids");
    assert Keys(ms) == ["ids", "delete-local-data"];
    Request("torrent-remove", Some(JObject(ms)))
  }

  /** `config_get`: no arguments at all, so the body has no "arguments" key. */
  function ConfigGetRequest(): (r: Request)
    ensures r.name == "session-get"
    ensures Get(Body(r).members, "arguments") == None
  {
    Request("session-get", None)
  }

  /** `config_set(config)`: the caller's value is the arguments, verbatim. */
  function ConfigSetRequest(config: Json): (r: Request)
    ensures r.name == "session-set"
    ensures Get(Body(r).members, "arguments") == Some(config)
  {
    Request("session-set", Some(config))
  }
}

=== FILE: session.dfy ===
/**
 * The client handle and its session-token handshake with the daemon.
 *
 * The HTTP server is a script: the finite sequence of replies it gives, in
 * order, one per request the client sends. A call consumes replies from the
 * front of the script and hands the rest to the next call.
 */
module Session {
  import opened Wrappers
  import opened JsonValue
  import opened Errors
  import opened Fields
  import opened Requests

  /** The token a client sends before the daemon has issued one. */
  const INITIAL_SESSION_ID: string := "NOT-INITIALIZED"

  /** The status by which the daemon rejects a missing or stale session token. */
  const SESSION_CONFLICT: int := 409

  datatype Credentials = Credentials(username: string, password: Option<string>)

  /** Construction options; `None` is an option the caller left out. */
  datatype Options = Options(
    url: string,
    username: Option<string>,
    password: Option<string>,
    withExtra: bool,
    fields: Option<seq<string>>,
    debugMode: bool)

  /** The client handle; `sessionId` is `None` once the daemon answered 409 without a token. */
  datatype Client = Client(
    url: string,
    withExtra: bool,
    fields: seq<string>,
    basicAuth: Option<Credentials>,
    sessionId: Option<string>,
    debugMode: bool)

  /** The field list a client starts from: the caller's, else the defaults. */
  function BaseFields(opts: Options): seq<string>
  {
    match opts.fields
    case Some(f) => f
    case None => TORRENT_FIELDS
  }

  /**
   * A fresh client. Without extended mode its field list is the base list
   * unchanged; with it, the base list united with the extra fields: no
   * duplicates, exactly the elements of both, the base's distinct entries
   * first in order. The token starts as "NOT-INITIALIZED", and basic-auth
   * credentials exist exactly when a username was supplied.
   */
  function New(opts: Options): (c: Client)
    ensures c.url == opts.url && c.withExtra == opts.withExtra && c.debugMode == opts.debugMode
    ensures !opts.withExtra ==> c.fields == BaseFields(opts)
    ensures opts.withExtra ==> NoDuplicates(c.fields)
    ensures opts.withExtra ==>
      forall x :: x in c.fields <==> x in BaseFields(opts) || x in TORRENT_EXTRA_FIELDS
    ensures opts.withExtra ==> Dedup(BaseFields(opts)) <= c.fields
    ensures c.sessionId == Some(INITIAL_SESSION_ID)
    ensures c.basicAuth.Some? <==> opts.username.Some?
    ensures c.basicAuth.Some? ==> c.basicAuth.value == Credentials(opts.username.value, opts.password)
  {
    var base := BaseFields(opts);
    Client(
      opts.url,
      opts.withExtra,
      if opts.withExtra then Union(base, TORRENT_EXTRA_FIELDS) else base,
      match opts.username
      case Some(u) => Some(Credentials(u, opts.password))
      case None => None,
      Some(INITIAL_SESSION_ID),
      opts.debugMode)
  }

  /**
   * One reply of the server: status code, the value of its
   * `x-transmission-session-id` header (if any), and its body, `None` when
   * the body is not JSON.
   */
  datatype Reply = Reply(code: int, sessionHeader: Option<string>, body: Option<Json>)

  /** One HTTP POST as sent: target, JSON body, session-token header, basic auth. */
  datatype Send = Send(url: string, body: Json, sessionId: Option<string>, auth: Option<Credentials>)

  /**
   * The result of one logical call: the client afterwards (its token may
   * have been replaced), every POST sent, the outcome, and the replies the
   * call left unconsumed.
   */
  datatype Call<T> = Call(client: Client, sends: seq<Send>, outcome: Result<T, Error>, rest: seq<Reply>)

  /**
   * What `http_post` promises of one call `r` that sends `req` from client
   * `c` against `script`. With `n + 1` sends, the first `n` replies were
   * all 409; the first send carries the client's token and every later one
   * the session header of the 409 reply before it; the client keeps
   * everything but the token, which ends as the last 409's header (unchanged
   * when there was none). The call returns the first non-409 reply
   * unchanged, or fails as a transport failure when the script runs out.
   */
  ghost predicate Handshake(c: Client, req: Request, script: seq<Reply>, r: Call<Reply>)
  {
    && 1 <= |r.sends| <= |script| + 1
    && ConflictsBefore(script, |r.sends| - 1)
    && SameTarget(c, req, r.sends)
    && TokensFollow(c, script, r.sends)
    && r.client == c.(sessionId := r.sends[|r.sends| - 1].sessionId)
    && Ends(script, r)
  }

  /** The first `n` replies of `script` were all 409. */
  ghost predicate ConflictsBefore(script: seq<Reply>, n: nat)
    requires n <= |script|
  {
    forall i :: 0 <= i < n ==> script[i].code == SESSION_CONFLICT
  }

  /** Every send goes to the client's URL with the request's body and the client's credentials. */
  ghost predicate SameTarget(c: Client, req: Request, sends: seq<Send>)
  {
    forall s :: s in sends ==> s.url == c.url && s.body == Body(req) && s.auth == c.basicAuth
  }

  /** The first send carries the client's token, each later one the header of the reply before it. */
  ghost predicate TokensFollow(c: Client, script: seq<Reply>, sends: seq<Send>)
    requires 1 <= |sends| <= |script| + 1
  {
    && sends[0].sessionId == c.sessionId
    && (forall i :: 1 <= i < |sends| ==> sends[i].sessionId == script[i - 1].sessionHeader)
  }

  /** How the call ends: the reply to its last send, or a transport failure once the script is used up. */
  ghost predicate Ends(script: seq<Reply>, r: Call<Reply>)
    requires 1 <= |r.sends|
  {
    && (r.outcome.Success? ==>
          && |r.sends| <= |script|
          && r.outcome.value == script[|r.sends| - 1]
          && r.outcome.value.code != SESSION_CONFLICT
          && r.rest == script[|r.sends|..])
    && (r.outcome.Failure? ==>
          |r.sends| == |script| + 1 && r.outcome.error == TransportFailure && r.rest == [])
  }

  lemma ConflictsStep(script: seq<Reply>, n: nat)
    requires 0 < |script| && script[0].code == SESSION_CONFLICT
    requires n <= |script| - 1 && ConflictsBefore(script[1..], n)
    ensures ConflictsBefore(script, n + 1)
  {
    forall i | 0 < i < n + 1
      ensures script[i].code == SESSION_CONFLICT
    {
      assert script[i] == script[1..][i - 1];
    }
  }

  lemma SameTargetStep(c: Client, t: Option<string>, req: Request, sends: seq<Send>)
    requires SameTarget(c.(sessionId := t), req, sends)
    ensures SameTarget(c, req, [Send(c.url, Body(req), c.sessionId, c.basicAuth)] + sends)
  {
  }

  lemma TokensStep(c: Client, req: Request, script: seq<Reply>, sends: seq<Send>)
    requires 0 < |script| && 1 <= |sends| <= |script|
    requires TokensFollow(c.(sessionId := script[0].sessionHeader), script[1..], sends)
    ensures TokensFollow(c, script, [Send(c.url, Body(req), c.sessionId, c.basicAuth)] + sends)
  {
    var all := [Send(c.url, Body(req), c.sessionId, c.basicAuth)] + sends;
    forall i | 1 <= i < |all|
      ensures all[i].sessionId == script[i - 1].sessionHeader
    {
      assert all[i] == sends[i - 1];
      if i > 1 {
        assert script[1..][i - 2] == script[i - 1];
      }
    }
  }

  lemma EndsStep(script: seq<Reply>, first: Send, next: Call<Reply>)
    requires 0 < |script| && 1 <= |next.sends| && Ends(script[1..], next)
    ensures Ends(script, Call(next.client, [first] + next.sends, next.outcome, next.rest))
  {
    if next.outcome.Success? {
      assert script[1..][|next.sends|..] == script[|next.sends| + 1..];
    }
  }

  /** A 409 reply followed by a call that keeps the promise keeps it for the whole. */
  lemma HandshakeStep(c: Client, req: Request, script: seq<Reply>, next: Call<Reply>)
    requires |script| > 0 && script[0].code == SESSION_CONFLICT
    requires Handshake(c.(sessionId := script[0].sessionHeader), req, script[1..], next)
    ensures Handshake(c, req, script,
      Call(next.client, [Send(c.url, Body(req), c.sessionId, c.basicAuth)] + next.sends, next.outcome, next.rest))
  {
    var first := Send(c.url, Body(req), c.sessionId, c.basicAuth);
    ConflictsStep(script, |next.sends| - 1);
    SameTargetStep(c, script[0].sessionHeader, req, next.sends);
    TokensStep(c, req, script, next.sends);
    EndsStep(script, first, next);
  }

  /**
   * `http_post`: send the request with the current token; on a 409 reply
   * store that reply's session header as the token and send again; return
   * the first other reply unchanged, whatever its status. There is no cap on
   * the number of renegotiations. A script that runs out leaves the last
   * send unanswered: a transport failure.
   */
  function HttpPost(c: Client, req: Request, script: seq<Reply>): (r: Call<Reply>)
    ensures Handshake(c, req, script, r)
    decreases |script|
  {
    var sent := Send(c.url, Body(req), c.sessionId, c.basicAuth);
    if |script| == 0 then
      Call(c, [sent], Failure(TransportFailure), [])
    else if script[0].code == SESSION_CONFLICT then
      var next := HttpPost(c.(sessionId := script[0].sessionHeader), req, script[1..]);
      HandshakeStep(c, req, script, next);
      Call(next.client, [sent] + next.sends, next.outcome, next.rest)
    else
      Call(c, [sent], Success(script[0]), script[1..])
  }

  /** A non-409 first reply means exactly one send, that reply returned, the token unchanged. */
  lemma FirstReplyFinal(c: Client, req: Request, script: seq<Reply>)
    requires |script| > 0 && script[0].code != SESSION_CONFLICT
    ensures |HttpPost(c, req, script).sends| == 1
    ensures HttpPost(c, req, script).outcome == Success(script[0])
    ensures HttpPost(c, req, script).client == c
    ensures HttpPost(c, req, script).rest == script[1..]
  {
  }

  /**
   * The call ends at the first non-409 reply, however many 409s come
   * before it: `k` rejections mean `k + 1` sends, and that reply is returned
   * unchanged, whatever its status.
   */
  lemma StopsAtFirstNonConflict(c: Client, req: Request, script: seq<Reply>, k: nat)
    requires k < |script| && script[k].code != SESSION_CONFLICT
    requires forall i :: 0 <= i < k ==> script[i].code == SESSION_CONFLICT
    ensures |HttpPost(c, req, script).sends| == k + 1
    ensures HttpPost(c, req, script).outcome == Success(script[k])
    ensures HttpPost(c, req, script).rest == script[k + 1..]
  {
  }

  /**
   * A single renegotiation: after a 409, the second send carries that 409's
   * session header, the client keeps it as its token, and the next reply is
   * returned.
   */
  lemma RenegotiatesOnce(c: Client, req: Request, script: seq<Reply>)
    requires |script| >= 2
    requires script[0].code == SESSION_CONFLICT && script[1].code != SESSION_CONFLICT
    ensures |HttpPost(c, req, script).sends| == 2
    ensures HttpPost(c, req, script).sends[0].sessionId == c.sessionId
    ensures HttpPost(c, req, script).sends[1].sessionId == script[0].sessionHeader
    ensures HttpPost(c, req, script).client.sessionId == script[0].sessionHeader
    ensures HttpPost(c, req, script).outcome == Success(script[1])
  {
    StopsAtFirstNonConflict(c, req, script, 1);
  }

  /** A server that only ever answers 409 exhausts the script: one send per reply and one more, unanswered. */
  lemma EndlessConflicts(c: Client, req: Request, script: seq<Reply>)
    requires forall i :: 0 <= i < |script| ==> script[i].code == SESSION_CONFLICT
    ensures |HttpPost(c, req, script).sends| == |script| + 1
    ensures HttpPost(c, req, script).outcome == Failure(TransportFailure)
  {
  }

  /**
   * A fresh client's first send carries "NOT-INITIALIZED", and every send
   * carries basic auth exactly when the options named a username.
   */
  lemma FreshClientSends(opts: Options, req: Request, script: seq<Reply>)
    ensures HttpPost(New(opts), req, script).sends[0].sessionId == Some(INITIAL_SESSION_ID)
    ensures forall s :: s in HttpPost(New(opts), req, script).sends ==>
      (s.auth.Some? <==> opts.username.Some?)
  {
  }
}

=== FILE: wrappers.dfy ===
/** `Option` and `Result`, used throughout the client model. */
module Wrappers {

  /** A value that may be absent; `None` plays the part of Ruby's `nil`. */
  datatype Option<+T> = None | Some(value: T)

  /** The outcome of an operation that may raise. */
  datatype Result<+R, +E> = Success(value: R) | Failure(error: E)
}
